=== FILE: README.md ===
# Clinexa DiagnosisBase — the ICD-11 client core, modelled in Dafny

Clinexa DiagnosisBase wraps the WHO ICD-11 REST API as a typed domain model:
diagnoses, symptoms and categories with multilingual titles. This project
models its decision logic and value types with the network abstracted away:

- **`ICDLanguage`** (`icd_language.dfy`): the 13 languages, their ISO 639-1
  codes and the case-insensitive reverse lookup `getByCode`.
- **`TitledImplementation`** (`titled.dfy`): a home-language title plus a
  function-valued getter for every other language; `throwException` is the
  getter that rejects them all.
- **`DiagnosisEntityImplementationICD11`** (`coded_entity.dfy`): diagnoses and
  symptoms (a `Kind` tag) identified by their ICD-11 code; version-qualified
  lookup, `equals`, `hashCode` (Java's `String.hashCode`, 32-bit wrap-around
  written out), `toString` and the serialization hooks.
- **`DiagnosisCategory`** (`diagnosis_category.dfy`): a titled value plus a
  system code; its translations ask the owning system for the title by id.
- **`DiagnosisCategoryListing`** (`category_listing.dfy`): the recursive
  tagged union and its three factories.
- **`ICD11DiagnosesSystem`** (`responses.dfy`, `icd11_client.dfy`): response
  classification (`getObjectType`), release-scoped paths (`formQuery`),
  entity-id extraction from `stemId` and child URIs, the parameter map
  (`setParameter`), `initToken`/`initRelease`, HTTP status triage, and the
  category listing, search, code lookup and title lookup built on them.
- `java_strings.dfy` writes out the `java.lang.String` operations the client
  relies on (`indexOf`, `substring`, `replace`, `equalsIgnoreCase`,
  `hashCode`); `wrappers.dfy` holds `Option`/`Result` and the
  stop-at-first-exception loop; `errors.dfy` the failures.

The API is a function `Api = Request -> Exchange` from a request (relative
path, `Accept-Language`, stored bearer token) to a status with a parsed
`Response` record, or to a transport failure. The token endpoint is a
function `TokenPost`, and `URLEncoder.encode` is a parameter of the search.
A JSON object is the record `Response`, where `None` means the key is absent.
The client's mutable parameter map and default language form the value
`Client`; operations that change it return the new value.

Two behaviours of the code are easy to misread:
- a response is a category when it has a `child` key, even an empty one;
- `getTitle()` means `getTitle(ENGLISH)`, not the title in the home language.

`init()` is modelled as written (`ICD11Client.Init`), including the
NullPointerException that a map holding only one credential ends in. The
composition with the corrected credential check is `ICD11Client.InitIntended`
(see "## Findings").

## Model

| member | source | states |
|---|---|---|
| ICDLanguages.Code | src/main/java/com/clinexa/basediagnosis/utils/ICDLanguage.java:25-37 | every constant has a two-letter lower-case ASCII code |
| ICDLanguages.CodeInjective | src/main/java/com/clinexa/basediagnosis/utils/ICDLanguage.java:25-37 | the 13 codes are pairwise distinct |
| ICDLanguages.FindFrom | src/main/java/com/clinexa/basediagnosis/utils/ICDLanguage.java:76-80 | the scan over `values()` returns a constant whose code matches ignoring case, and fails exactly when no remaining constant matches |
| ICDLanguages.ByCode | src/main/java/com/clinexa/basediagnosis/utils/ICDLanguage.java:75-81 | the result matches the input ignoring case; the lookup fails with the unknown-language error iff no code matches |
| ICDLanguages.ByCodeFindsMatch | src/main/java/com/clinexa/basediagnosis/utils/ICDLanguage.java:77 | any string equal to a language's code ignoring case resolves to exactly that language |
| ICDLanguages.ByCodeRoundTrip | src/main/java/com/clinexa/basediagnosis/utils/ICDLanguage.java:63-81 | `getByCode(getCode(l)) == l` for every constant |
| ICDLanguages.ByCodeIgnoresCase | src/main/java/com/clinexa/basediagnosis/utils/ICDLanguage.java:77 | the upper-cased code resolves to the same language |
| ICDLanguages.RussianByEitherCase | src/main/java/com/clinexa/basediagnosis/utils/ICDLanguage.java:77 | "RU" and "ru" both give RUSSIAN |
| ICDLanguages.GermanIsUnknown | src/main/java/com/clinexa/basediagnosis/utils/ICDLanguage.java:80 | a code outside the catalog ("de") fails with the unknown-language error |
| Titles.TitleIn | src/main/java/com/clinexa/basediagnosis/implementations/TitledImplementation.java:19-24 | the home language gives the stored title; any other language gives the getter's answer |
| Titles.DefaultTitle | src/main/java/com/clinexa/basediagnosis/implementations/TitledImplementation.java:27-29 | `getTitle()` is the English title: the stored one only when the home language is English, otherwise the getter's |
| Titles.HomeTitleIgnoresGetter | src/main/java/com/clinexa/basediagnosis/implementations/TitledImplementation.java:20-21 | the home-language title is the constructor's title whatever the getter is, so the getter is never consulted |
| Titles.OtherTitleIsGetters | src/main/java/com/clinexa/basediagnosis/implementations/TitledImplementation.java:22-23 | a non-home title is exactly what the getter returns for that language |
| Titles.RejectOtherLanguages | src/main/java/com/clinexa/basediagnosis/implementations/AnotherLanguageGetter.java:36-38 | the sentinel getter fails with unsupported-operation for every language |
| Titles.Untranslatable | src/main/java/com/clinexa/basediagnosis/systems/ICD11DiagnosesSystem.java:279 | the object built with the sentinel keeps title and home language and rejects every other language |
| Titles.UntranslatableOnlyAtHome | src/main/java/com/clinexa/basediagnosis/implementations/AnotherLanguageGetter.java:36-38 | with the sentinel a title succeeds iff it is asked in the home language |
| Titles.UntranslatableDefaultTitle | src/main/java/com/clinexa/basediagnosis/implementations/TitledImplementation.java:27-29 | `getTitle()` of an untranslatable title succeeds iff its home language is English |
| CodedEntities.IcdCode | src/main/java/com/clinexa/basediagnosis/implementations/DiagnosisEntityImplementationICD11.java:24-29 | the stored code for ICD11; unsupported-operation for any other version |
| CodedEntities.Icd11CodeIsConstructorCode | src/main/java/com/clinexa/basediagnosis/implementations/DiagnosisEntityImplementationICD11.java:15-21 | `getICD11Code` returns the constructor's code unchanged and agrees with `getICDCode(ICD11)` |
| CodedEntities.EqualsByCodeOnly | src/main/java/com/clinexa/basediagnosis/implementations/DiagnosisEntityImplementationICD11.java:32-35 | `equals` holds iff the other object is an entity with an equal code; a diagnosis equals a symptom with its code; null and foreign objects are never equal |
| CodedEntities.SameEntityIsEquivalence | src/main/java/com/clinexa/basediagnosis/implementations/DiagnosisEntityImplementationICD11.java:32-35 | equality is reflexive, symmetric and transitive |
| CodedEntities.HashCode | src/main/java/com/clinexa/basediagnosis/implementations/DiagnosisEntityImplementationICD11.java:37-40 | the hash is a Java `int` computed from the code alone |
| CodedEntities.EqualEntitiesHashEqually | src/main/java/com/clinexa/basediagnosis/implementations/DiagnosisEntityImplementationICD11.java:32-40 | equal entities hash equally |
| CodedEntities.DistinctCodesExample | src/test/java/com/clinexa/basediagnosis/systems/TestDiagnosisEntitiesICD11Implementation.java:68-75 | the diagnoses "1A40.0" and "1A40.Z" are unequal and their hashes differ |
| JavaStrings.LastCharSeparatesHashes | src/main/java/com/clinexa/basediagnosis/implementations/DiagnosisEntityImplementationICD11.java:37-40 | codes that differ only in their last character never share a hash |
| CodedEntities.ToString | src/main/java/com/clinexa/basediagnosis/implementations/DiagnosisEntityImplementationICD11.java:43-47 | the code sits between the class name with `{ICD11Code='` and the closing `'}` |
| CodedEntities.ToStringInjective | src/main/java/com/clinexa/basediagnosis/implementations/DiagnosisEntityImplementationICD11.java:43-47 | the string form determines both class and code |
| CodedEntities.Read | src/main/java/com/clinexa/basediagnosis/implementations/DiagnosisEntityImplementationICD11.java:55-60 | a restored entity takes its class from the descriptor and its code from the explicitly written string |
| CodedEntities.SerializationRoundTrip | src/main/java/com/clinexa/basediagnosis/implementations/DiagnosisEntityImplementationICD11.java:49-60 | write-then-read restores the entity, hence its equality and hash |
| Categories.TranslateThrough | src/main/java/com/clinexa/basediagnosis/DiagnosisCategory.java:26 | a translation is the system's title-by-id answer read in the requested language, and its failure surfaces unchanged |
| Categories.MakeCategory | src/main/java/com/clinexa/basediagnosis/DiagnosisCategory.java:25-28 | the category keeps name, home language and system code, and translates through the system |
| Categories.MakeLegacyCategory | src/main/java/com/clinexa/basediagnosis/DiagnosisCategory.java:30-33 | the deprecated constructor fixes the home language to ENGLISH |
| Categories.Name | src/main/java/com/clinexa/basediagnosis/DiagnosisCategory.java:36-38 | `getName()` is the title in the home language, i.e. the constructor's name |
| Categories.HomeTitleNeedsNoSystem | src/main/java/com/clinexa/basediagnosis/DiagnosisCategory.java:25-27 | home title, name and system code come from the constructor whatever the system is |
| Categories.OtherTitleComesFromSystem | src/main/java/com/clinexa/basediagnosis/DiagnosisCategory.java:26 | in another language the title is the system's fetched title for the category id |
| Categories.OtherTitleFailureFromSystem | src/main/java/com/clinexa/basediagnosis/DiagnosisCategory.java:26 | a failure of the system's lookup is the category's failure |
| CategoryListings.MakeCategoriesList | src/main/java/com/clinexa/basediagnosis/DiagnosisCategoryListing.java:25-27 | type CATEGORIES, the given categories, null diagnoses and symptoms |
| CategoryListings.MakeDiagnosesList | src/main/java/com/clinexa/basediagnosis/DiagnosisCategoryListing.java:29-31 | type DIAGNOSES, the given diagnoses, null categories and symptoms |
| CategoryListings.MakeSymptomsList | src/main/java/com/clinexa/basediagnosis/DiagnosisCategoryListing.java:33-35 | type SYMPTOMS, the given symptoms, null categories and diagnoses |
| CategoryListings.FactoriesPopulateOnePayload | src/main/java/com/clinexa/basediagnosis/DiagnosisCategoryListing.java:18-35 | a factory given a non-null list populates exactly the payload its tag names; a null list leaves none |
| CategoryListings.CategoriesListWellFormed | src/main/java/com/clinexa/basediagnosis/DiagnosisCategoryListing.java:25-27 | a categories listing is a well-formed tree iff every nested listing is |
| CategoryListings.LeafListsWellFormed | src/main/java/com/clinexa/basediagnosis/DiagnosisCategoryListing.java:29-35 | diagnoses and symptoms listings are well formed iff their elements have the matching class |
| CategoryListings.OnePayloadIsFactoryBuilt | src/main/java/com/clinexa/basediagnosis/DiagnosisCategoryListing.java:18-51 | every listing with one payload is what its tag's factory makes of the stored payload, which the getters return unchanged |
| Responses.ObjectType | src/main/java/com/clinexa/basediagnosis/systems/ICD11DiagnosesSystem.java:448-457 | a `child` key makes a category whatever the code; otherwise a symptom iff the code starts with "M", else a diagnosis; neither key fails |
| Responses.TitleOf | src/main/java/com/clinexa/basediagnosis/systems/ICD11DiagnosesSystem.java:397-399 | `title.@value` when present, the missing-key error otherwise |
| Responses.PinnedCodesClassify | src/test/java/com/clinexa/basediagnosis/systems/ICD11DiagnosesSystemTest.java:36-53 | "MG24.01" classifies as a symptom and "1A40.0" as a diagnosis |
| Responses.ChildKeyWinsOverCode | src/main/java/com/clinexa/basediagnosis/systems/ICD11DiagnosesSystem.java:449-450 | a response with a `child` key, even an empty one and even with an "M" code, is a category |
| Responses.EmptyCodeIsDiagnosis | src/main/java/com/clinexa/basediagnosis/systems/ICD11DiagnosesSystem.java:452-456 | an empty code does not start with "M" and gives a diagnosis |
| ICD11Client.Get | src/main/java/com/clinexa/basediagnosis/systems/ICD11DiagnosesSystem.java:142-143 | `data.get(key)` is present iff the key is stored, with its value |
| ICD11Client.SetParameter | src/main/java/com/clinexa/basediagnosis/systems/ICD11DiagnosesSystem.java:419-421 | the key maps to the new value and every other key and the language are unchanged |
| ICD11Client.SetParameterOverwrites | src/main/java/com/clinexa/basediagnosis/systems/ICD11DiagnosesSystem.java:419-421 | the last write to a key wins; writes to different keys commute |
| ICD11Client.SetLanguage | src/main/java/com/clinexa/basediagnosis/systems/ICD11DiagnosesSystem.java:352-354 | only the default language changes |
| ICD11Client.FormQuery | src/main/java/com/clinexa/basediagnosis/systems/ICD11DiagnosesSystem.java:407-409 | the empty id gives `release/11/<release>/mms`; any other id appends "/" and the id |
| ICD11Client.FormQueryExtendsRoot | src/main/java/com/clinexa/basediagnosis/systems/ICD11DiagnosesSystem.java:407-409 | the root path is a strict prefix of every entity path, and distinct ids give distinct paths |
| ICD11Client.ChildQueryIsFormQuery | src/main/java/com/clinexa/basediagnosis/systems/ICD11DiagnosesSystem.java:365 | `processChild` requests exactly `formQuery(childId)` for a non-empty id, and the root path plus "/" for an empty one |
| JavaStrings.IndexOf | src/main/java/com/clinexa/basediagnosis/systems/ICD11DiagnosesSystem.java:198 | `indexOf` is -1 iff the marker does not occur, else the first index where it occurs |
| ICD11Client.IdAfter | src/main/java/com/clinexa/basediagnosis/systems/ICD11DiagnosesSystem.java:198 | the extracted id is the suffix that starts at `indexOf(marker) + 4`, and extraction fails with an index error iff the marker position plus 4 passes the end |
| ICD11Client.EntityIdRoundTrip | src/main/java/com/clinexa/basediagnosis/systems/ICD11DiagnosesSystem.java:364 | for `p + "mms/" + id` with no "mms" in `p`, both the `stemId` rule and the child-URI rule extract exactly `id` |
| ICD11Client.StemIdWithoutMarker | src/main/java/com/clinexa/basediagnosis/systems/ICD11DiagnosesSystem.java:198 | a `stemId` without "mms" loses its first three characters, or fails when shorter than three |
| ICD11Client.ApiResponse | src/main/java/com/clinexa/basediagnosis/systems/ICD11DiagnosesSystem.java:478-504 | 404 gives not-found, any other non-200 status the generic error, a transport failure the generic error, and only 200 the parsed body |
| ICD11Client.InitTokenAsWritten | src/main/java/com/clinexa/basediagnosis/systems/ICD11DiagnosesSystem.java:138-154 | the configuration error arises iff BOTH credentials are missing; exactly one missing gives a NullPointerException |
| ICD11Client.InitToken | src/main/java/com/clinexa/basediagnosis/systems/ICD11DiagnosesSystem.java:138-168 | fails with the configuration error iff a credential is missing; succeeds iff the reply is 200 with `access_token`, storing it and changing no other key |
| ICD11Client.RequestToken | src/main/java/com/clinexa/basediagnosis/systems/ICD11DiagnosesSystem.java:160-167 | a non-200 reply and an unreachable token endpoint are the generic error, a reply without `access_token` the no-token error, otherwise `setParameter` of the token |
| ICD11Client.InitTokenGuardCounterexample | src/main/java/com/clinexa/basediagnosis/systems/ICD11DiagnosesSystem.java:139-154 | with only the client id stored, the code as written throws NullPointerException where the intended guard reports missing credentials |
| ICD11Client.InitTokenAgreesWithCredentials | src/main/java/com/clinexa/basediagnosis/systems/ICD11DiagnosesSystem.java:139-168 | with both credentials stored, the written and intended versions agree |
| ICD11Client.NormaliseReleaseRoundTrip | src/main/java/com/clinexa/basediagnosis/systems/ICD11DiagnosesSystem.java:180 | stripping the release prefix and "/mms" recovers the release id from its URI |
| ICD11Client.NormaliseReleaseExample | src/main/java/com/clinexa/basediagnosis/systems/ICD11DiagnosesSystem.java:180 | ".../release/11/2024-01/mms" becomes "2024-01" |
| ICD11Client.InitRelease | src/main/java/com/clinexa/basediagnosis/systems/ICD11DiagnosesSystem.java:176-182 | fails without `latestRelease`, else stores its normalised value under the release key and changes no other key |
| ICD11Client.Init | src/main/java/com/clinexa/basediagnosis/systems/ICD11DiagnosesSystem.java:121-128 | the written token step first, then the release: both credentials missing is the configuration error, exactly one missing the uncaught NullPointerException; with both stored a token failure is the result, otherwise the release step's result; on success exactly the token and release keys are added or replaced |
| ICD11Client.InitIntended | src/main/java/com/clinexa/basediagnosis/systems/ICD11DiagnosesSystem.java:121-128 | with the corrected token step any missing credential is the configuration error; otherwise a token failure is the result, else the release step's result; on success exactly the token and release keys are added or replaced |
| ICD11Client.InitAgreesWithIntended | src/main/java/com/clinexa/basediagnosis/systems/ICD11DiagnosesSystem.java:139-154 | the written and intended `init()` agree unless exactly one credential is stored, where the first throws NullPointerException and the second reports missing credentials |
| ICD11Client.TitleByEntityId | src/main/java/com/clinexa/basediagnosis/systems/ICD11DiagnosesSystem.java:276-280 | succeeds iff the entity fetch is 200 with a title, returning an untranslatable title in the requested language; a failed fetch is that failure, a fetched entity without `title` the missing-key error |
| ICD11Client.CreatePair | src/main/java/com/clinexa/basediagnosis/systems/ICD11DiagnosesSystem.java:379-389 | a response that cannot be classified fails with that error, a classified one without `title` with the missing-key error; otherwise the built object's type is the response's classification, paired with the given id; categories translate through this client, entities carry the response's code and title |
| ICD11Client.CategoryTranslationThroughClient | src/main/java/com/clinexa/basediagnosis/DiagnosisCategory.java:26 | a client-built category in another language gets the title fetched for its id in that language, never the sentinel's rejection |
| ICD11Client.LegacyCategoryUsesFreshSystem | src/main/java/com/clinexa/basediagnosis/DiagnosisCategory.java:30-33 | the deprecated constructor translates through a fresh system: no token and the release "null" in the path |
| ICD11Client.ProcessChild | src/main/java/com/clinexa/basediagnosis/systems/ICD11DiagnosesSystem.java:363-368 | an id that cannot be extracted is the index error; a failed fetch of the child is that failure; otherwise the pair built from the child's response, whose id is the extracted one and whose type classifies that response |
| Wrappers.MapUntilFailure | src/main/java/com/clinexa/basediagnosis/systems/ICD11DiagnosesSystem.java:232-236 | the loop yields one result per element in order, or the first element's failure after all earlier ones succeeded |
| ICD11Client.CategoryListing | src/main/java/com/clinexa/basediagnosis/systems/ICD11DiagnosesSystem.java:226-237 | fails without a `child` key; otherwise one pair per child, in order, the i-th carrying the id extracted from the i-th child URI |
| ICD11Client.ParentCategoryListing | src/main/java/com/clinexa/basediagnosis/systems/ICD11DiagnosesSystem.java:212-214 | the parent listing is the listing of the empty id |
| ICD11Client.ParentListingIsRootListing | src/main/java/com/clinexa/basediagnosis/systems/ICD11DiagnosesSystem.java:212-229 | the parent listing has one pair per child of the release root and fails as "not a category" when the root has no `child` key |
| ICD11Client.ListingKeepsChildIds | src/main/java/com/clinexa/basediagnosis/systems/ICD11DiagnosesSystem.java:232-235 | when no "mms" occurs in `p`, children named `EntityUri(p, ids[i])` produce pairs carrying exactly `ids`, in order |
| ICD11Client.ProcessHit | src/main/java/com/clinexa/basediagnosis/systems/ICD11DiagnosesSystem.java:256-260 | a hit without `stemId` fails, an id that cannot be extracted is the index error, a failed fetch is that failure; otherwise the pair built from the fetched entity, with the id from the `stemId` and the type classifying that entity |
| ICD11Client.SearchResult | src/main/java/com/clinexa/basediagnosis/systems/ICD11DiagnosesSystem.java:249-263 | fails as the search request fails or without `destinationEntities`; otherwise succeeds iff every hit builds a pair, giving one pair per hit in upstream order |
| ICD11Client.SearchResultsAreClassified | src/main/java/com/clinexa/basediagnosis/systems/ICD11DiagnosesSystem.java:255-261 | every search result is a category, diagnosis or symptom as its own response classifies it |
| ICD11Client.ByIcd11Code | src/main/java/com/clinexa/basediagnosis/systems/ICD11DiagnosesSystem.java:195-201 | fails as the code-info request fails, without `stemId`, on an unextractable id, as the entity fetch fails or as building fails; otherwise the built object, whose type classifies the fetched entity and which carries its code |
| ICD11Client.ByIcd11CodeFetchesStemEntity | src/main/java/com/clinexa/basediagnosis/systems/ICD11DiagnosesSystem.java:196-200 | when the code-info `stemId` is `EntityUri(p, id)` with no "mms" in `p`, the lookup fetches exactly `id`, passes that fetch's failure through, and succeeds iff the fetched response builds an object, which it returns |

## Left out

- HTTP transport: the `HttpClient`, request building, the headers (`Authorization`, `Accept`, `API-Version`), the 10-second timeout, resolution against the base URI and try-with-resources (ICD11DiagnosesSystem.java:122-127, 145-160, 480-494). Requests and replies are function parameters; a transport failure is one `Unanswered` outcome.
- The OAuth 2.0 client-credentials POST and its form-urlencoded body (section 4.4 of RFC 6749): only its outcome is modelled, as a `TokenPost` function of the two credentials.
- JSON parsing by org.json: a body that is not JSON and a key holding a value of the wrong JSON type are not modelled. The `Response` record only says which keys are present.
- `URLEncoder.encode` in the search is the parameter `encode`.
- The singleton `getInstance` and the public constructor (ICD11DiagnosesSystem.java:79-108). `Fresh` stands for the state the constructor creates.
- The one-argument overloads (ICD11DiagnosesSystem.java:291-342) only pass the `language` field to the two-argument operations, so they have no members of their own.
- The Java `assert` in `getAPIResponse` (line 479) is disabled by default and is not modelled.
- `getAPIResponse` rewraps every exception, including its own not-found exception, in a new `DiagnosesSystemException` (lines 501-503). The model keeps only the innermost cause.
- URI syntax validation: `formURI` (ICD11DiagnosesSystem.java:430-436) turns a `URISyntaxException` into a `DiagnosesSystemException`, and `URI.create` in `getCategoryListing` and `processChild` (lines 227, 366) throws `IllegalArgumentException`. The model treats every path as valid and always hands it to `Api`, so an id or code containing, for example, a space reaches the API instead of failing first.
- `setParameter` with a `null` value: stored values are strings.
- A category's translation closure captures the client state when the category is built. Java's closure reads the live parameter map, so a later `setParameter` would be seen there but not in the model.
- The subclass constructors of `Diagnosis` and `Symptom`, and their translation getters, are not part of this model. A listed diagnosis or symptom carries the code, title and language that `createPairByResponse` passes to them.
- Serialization covers only the base-class state, meaning the class and the code. Subclass fields are not part of this model.
- `ICDVersion` is not part of this model; it is assumed to have ICD10 and ICD11.
- `ICDLanguage.toString` (ICDLanguage.java:50-55) only formats text.
- `equalsIgnoreCase`: Java's Unicode case mapping is modelled only for characters whose mapping leads to or from an ASCII letter. These are ASCII letters, long s, dotless i, the Kelvin sign and capital I with dot. Every comparison in the core is against a lower-case ASCII code, and for those this is Java's answer.
- `String.hashCode` sums Dafny characters, which are Unicode scalar values. Java sums UTF-16 code units, which agree only inside the Basic Multilingual Plane.
- `DiagnosesSystem`, `DiagnosisEntity`, `Titled`, `SymptomSupplier`, `ICDCodeConverter`, `module-info`, `DiagnosesSystemException` and the test helpers are interfaces, wiring or scaffolding without logic of their own. `DiagnosesSystemException` is part of the `Error` datatype.
- No concurrency: the source is single-threaded and its parameter map is unsynchronised.

## Findings

| source | as written | input that shows it | evidently intended | confidence | as-written member | corrected member |
|---|---|---|---|---|---|---|
| src/main/java/com/clinexa/basediagnosis/systems/ICD11DiagnosesSystem.java:139-154 | the guard `!containsKey(CLIENT_ID_KEY) && !containsKey(CLIENT_SECRET_KEY)` rejects only a map missing both credentials | only the client id set: the guard passes, `data.get(CLIENT_SECRET_KEY)` is null and `URLEncoder.encode(null, UTF_8)` throws NullPointerException, which `init` does not catch | `\|\|`: either missing credential raises the configuration error, as its message asks for both keys | medium; not executed | ICD11Client.InitTokenAsWritten (ICD11Client.InitTokenGuardCounterexample) | ICD11Client.InitToken |

=== FILE: category_listing.dfy ===
/** `DiagnosisCategoryListing`: a tagged union built only by three
    factories, whose category payload nests further listings as a tree.
    A Java `null` payload is `None` (`NullSublistings` for the nested
    listings); the getters are the datatype fields. */
module CategoryListings {
  import opened Wrappers
  import opened CodedEntities

  /** `ListingValue`: which payload a listing carries. */
  datatype ListingValue = CategoriesValue | DiagnosesValue | SymptomsValue

  /** A `List<DiagnosisCategoryListing>` reference: null, or the nested
      listings in order. */
  datatype Sublistings = NullSublistings | Sublistings(items: seq<Listing>)

  datatype Listing = Listing(
    kind: ListingValue,
    categories: Sublistings,
    diagnoses: Option<seq<CodedEntity>>,
    symptoms: Option<seq<CodedEntity>>)

  /** `makeCategoriesList(categories)`. */
  function MakeCategoriesList(categories: Sublistings): (r: Listing)
    ensures r.kind == CategoriesValue && r.categories == categories
    ensures r.diagnoses.None? && r.symptoms.None?
  {
    Listing(CategoriesValue, categories, None, None)
  }

  /** `makeDiagnosesList(diagnoses)`. */
  function MakeDiagnosesList(diagnoses: Option<seq<CodedEntity>>): (r: Listing)
    ensures r.kind == DiagnosesValue && r.diagnoses == diagnoses
    ensures r.categories.NullSublistings? && r.symptoms.None?
  {
    Listing(DiagnosesValue, NullSublistings, diagnoses, None)
  }

  /** `makeSymptomsList(symptoms)`. */
  function MakeSymptomsList(symptoms: Option<seq<CodedEntity>>): (r: Listing)
    ensures r.kind == SymptomsValue && r.symptoms == symptoms
    ensures r.categories.NullSublistings? && r.diagnoses.None?
  {
    Listing(SymptomsValue, NullSublistings, None, symptoms)
  }

  /** Exactly the payload named by the tag is present. */
  predicate OnePayload(l: Listing) {
    match l.kind
    case CategoriesValue => l.categories.Sublistings? && l.diagnoses.None? && l.symptoms.None?
    case DiagnosesValue => l.diagnoses.Some? && l.categories.NullSublistings? && l.symptoms.None?
    case SymptomsValue => l.symptoms.Some? && l.categories.NullSublistings? && l.diagnoses.None?
  }

  predicate AllOfKind(es: seq<CodedEntity>, k: Kind) {
    forall i :: 0 <= i < |es| ==> es[i].kind == k
  }

  /** A well-formed tree: every node carries one payload, diagnoses lists
      hold diagnoses, symptoms lists hold symptoms (as the Java element
      types guarantee), and every nested listing is well formed. */
  predicate WellFormed(l: Listing)
    decreases l
  {
    && OnePayload(l)
    && (l.kind == DiagnosesValue ==> AllOfKind(l.diagnoses.value, Diagnosis))
    && (l.kind == SymptomsValue ==> AllOfKind(l.symptoms.value, Symptom))
    && match l.categories
       case Sublistings(cs) => forall c | c in cs :: WellFormed(c)
       case NullSublistings => true
  }

  /** Every factory given a non-null argument builds a listing with its one
      matching payload; a null argument leaves the listing with none. */
  lemma FactoriesPopulateOnePayload(cs: seq<Listing>, ds: seq<CodedEntity>, ss: seq<CodedEntity>)
    ensures OnePayload(MakeCategoriesList(Sublistings(cs)))
    ensures OnePayload(MakeDiagnosesList(Some(ds)))
    ensures OnePayload(MakeSymptomsList(Some(ss)))
    ensures !OnePayload(MakeCategoriesList(NullSublistings))
    ensures !OnePayload(MakeDiagnosesList(None))
    ensures !OnePayload(MakeSymptomsList(None))
  {
  }

  /** Nesting well-formed listings under a category keeps the tree well
      formed, and only then. */
  lemma CategoriesListWellFormed(cs: seq<Listing>)
    ensures WellFormed(MakeCategoriesList(Sublistings(cs))) <==> forall c | c in cs :: WellFormed(c)
  {
  }

  lemma LeafListsWellFormed(ds: seq<CodedEntity>, ss: seq<CodedEntity>)
    ensures WellFormed(MakeDiagnosesList(Some(ds))) <==> AllOfKind(ds, Diagnosis)
    ensures WellFormed(MakeSymptomsList(Some(ss))) <==> AllOfKind(ss, Symptom)
  {
  }

  /** The factory the tag names, applied to the payload the tag names. */
  function Rebuild(l: Listing): Listing {
    match l.kind
    case CategoriesValue => MakeCategoriesList(l.categories)
    case DiagnosesValue => MakeDiagnosesList(l.diagnoses)
    case SymptomsValue => MakeSymptomsList(l.symptoms)
  }

  /** The factories are the only way to build a listing: every listing with
      one payload is what its tag's factory makes of its payload. */
  lemma OnePayloadIsFactoryBuilt(l: Listing)
    requires OnePayload(l)
    ensures Rebuild(l) == l
  {
  }
}

=== FILE: coded_entity.dfy ===
/** Diagnoses and symptoms identified by their ICD-11 code
    (`DiagnosisEntityImplementationICD11`). The two subclasses add no logic
    of their own here, so they are a tag on one datatype. */
module CodedEntities {
  import opened Wrappers
  import opened Errors
  import opened JavaStrings

  /** The runtime class: `Diagnosis` or `Symptom`. */
  datatype Kind = Diagnosis | Symptom

  datatype CodedEntity = CodedEntity(kind: Kind, icd11Code: string)

  /** The ICD revisions a code may be asked in. */
  datatype IcdVersion = ICD10 | ICD11

  /** The argument of `equals(Object)`: null, one of these entities, or an
      object of any other class. */
  datatype JavaObject = Null | EntityObject(entity: CodedEntity) | OtherObject

  /** `getICDCode(version)`: the stored code for ICD-11, otherwise
      UnsupportedOperationException. */
  function IcdCode(e: CodedEntity, v: IcdVersion): (r: Result<string, Error>)
    ensures r.Success? <==> v == ICD11
    ensures r.Success? ==> r.value == e.icd11Code
    ensures r.Failure? ==> r.error == Unsupported
  {
    if v == ICD11 then Success(e.icd11Code) else Failure(Unsupported)
  }

  /** `getICD11Code()` agrees with `getICDCode(ICD11)` and returns the code
      given at construction. */
  lemma Icd11CodeIsConstructorCode(kind: Kind, code: string)
    ensures IcdCode(CodedEntity(kind, code), ICD11) == Success(CodedEntity(kind, code).icd11Code)
    ensures CodedEntity(kind, code).icd11Code == code
  {
  }

  /** `equals(o)`: `o` is an entity of this base class with an equal code. */
  predicate Equals(e: CodedEntity, o: JavaObject) {
    match o
    case EntityObject(other) => e.icd11Code == other.icd11Code
    case _ => false
  }

  /** Equality between two entities. */
  predicate SameEntity(a: CodedEntity, b: CodedEntity) {
    Equals(a, EntityObject(b))
  }

  /** Equality ignores the runtime class: a diagnosis and a symptom with
      one code are equal, and null or foreign objects never are. */
  lemma EqualsByCodeOnly(e: CodedEntity, o: JavaObject)
    ensures Equals(e, o) <==> o.EntityObject? && o.entity.icd11Code == e.icd11Code
    ensures Equals(CodedEntity(Diagnosis, e.icd11Code), EntityObject(CodedEntity(Symptom, e.icd11Code)))
    ensures !Equals(e, Null) && !Equals(e, OtherObject)
  {
  }

  /** `equals` is an equivalence relation on entities. */
  lemma SameEntityIsEquivalence(a: CodedEntity, b: CodedEntity, c: CodedEntity)
    ensures SameEntity(a, a)
    ensures SameEntity(a, b) <==> SameEntity(b, a)
    ensures SameEntity(a, b) && SameEntity(b, c) ==> SameEntity(a, c)
  {
  }

  /** `hashCode()`: `Objects.hashCode` of the code, i.e. `String.hashCode`. */
  function HashCode(e: CodedEntity): (h: int)
    ensures -0x8000_0000 <= h < 0x8000_0000
  {
    StringHashCode(e.icd11Code)
  }

  /** Equal entities hash equally. */
  lemma EqualEntitiesHashEqually(a: CodedEntity, b: CodedEntity)
    requires SameEntity(a, b)
    ensures HashCode(a) == HashCode(b)
  {
  }

  /** The two diagnoses the inequality test builds, "1A40.0" and "1A40.Z",
      are unequal and hash apart. */
  lemma DistinctCodesExample()
    ensures !SameEntity(CodedEntity(Diagnosis, "1A40.0"), CodedEntity(Diagnosis, "1A40.Z"))
    ensures HashCode(CodedEntity(Diagnosis, "1A40.0")) != HashCode(CodedEntity(Diagnosis, "1A40.Z"))
  {
    assert "1A40.0" == "1A40." + ['0'];
    assert "1A40.Z" == "1A40." + ['Z'];
    LastCharSeparatesHashes("1A40.", '0', 'Z');
  }

  /** `getClass().getSimpleName()`. */
  function SimpleName(k: Kind): string {
    match k
    case Diagnosis => "Diagnosis"
    case Symptom => "Symptom"
  }

  /** `toString()`: `<SimpleName>{ICD11Code='<code>'}`. */
  function ToString(e: CodedEntity): (s: string)
    ensures |s| == |SimpleName(e.kind)| + 12 + |e.icd11Code| + 2
    ensures s[..|SimpleName(e.kind)| + 12] == SimpleName(e.kind) + "{ICD11Code='"
    ensures s[|SimpleName(e.kind)| + 12..|s| - 2] == e.icd11Code
    ensures s[|s| - 2..] == "'}"
  {
    SimpleName(e.kind) + "{ICD11Code='" + e.icd11Code + "'}"
  }

  /** `toString()` determines both the class and the code. */
  lemma ToStringInjective(a: CodedEntity, b: CodedEntity)
    requires ToString(a) == ToString(b)
    ensures a == b
  {
    var s := ToString(a);
    assert s[0] == SimpleName(a.kind)[0] == SimpleName(b.kind)[0];
    assert a.icd11Code == s[|SimpleName(a.kind)| + 12..|s| - 2];
  }

  /** What Java serialization puts on the stream for an entity. */
  datatype StreamItem = ClassTag(kind: Kind) | Str(s: string)

  /** `writeObject`: the class descriptor, the non-transient field written
      by `defaultWriteObject`, then the code written explicitly. */
  function Write(e: CodedEntity): seq<StreamItem> {
    [ClassTag(e.kind), Str(e.icd11Code), Str(e.icd11Code)]
  }

  /** `readObject`: `defaultReadObject` restores the field, then the
      explicitly written object is cast to `String` and replaces it. */
  function Read(stream: seq<StreamItem>): (r: Result<CodedEntity, Error>)
    ensures r.Success? ==> |stream| == 3 && stream[0] == ClassTag(r.value.kind) && stream[2] == Str(r.value.icd11Code)
  {
    if |stream| != 3 || !stream[0].ClassTag? || !stream[1].Str? || !stream[2].Str? then Failure(InvalidStream)
    else Success(CodedEntity(stream[0].kind, stream[2].s))
  }

  /** Write-then-read restores the entity, hence equality and hash. */
  lemma SerializationRoundTrip(e: CodedEntity)
    ensures Read(Write(e)) == Success(e)
    ensures SameEntity(Read(Write(e)).value, e)
    ensures HashCode(Read(Write(e)).value) == HashCode(e)
  {
  }
}

=== FILE: diagnosis_category.dfy ===
/** A category of the ICD-11 hierarchy (`DiagnosisCategory`): a titled value
    plus the entity id the API assigns it. Its other-language titles are
    asked of the diagnoses system that built it. */
module Categories {
  import opened Wrappers
  import opened Errors
  import opened ICDLanguages
  import opened Titles

  /** `DiagnosesSystem.getTitleByEntityID(entity, language)` of the system a
      category was built by. */
  type TitleLookup = (string, Language) -> Result<Titled, Error>

  datatype Category = Category(titled: Titled, systemCode: string)

  /** The translation closure of the four-argument constructor:
      `system.getTitleByEntityID(systemCode, lang).getTitle(lang)`. */
  function TranslateThrough(system: TitleLookup, systemCode: string, l: Language): (r: Result<string, Error>)
    ensures system(systemCode, l).Failure? ==> r == Failure(system(systemCode, l).error)
    ensures system(systemCode, l).Success? ==> r == TitleIn(system(systemCode, l).value, l)
  {
    var t :- system(systemCode, l);
    TitleIn(t, l)
  }

  /** `new DiagnosisCategory(name, systemCode, language, system)`. */
  function MakeCategory(name: string, systemCode: string, language: Language, system: TitleLookup): (c: Category)
    ensures c.systemCode == systemCode
    ensures c.titled.title == name && c.titled.home == language
    ensures forall l :: c.titled.getter(l) == TranslateThrough(system, systemCode, l)
  {
    Category(Titled(name, language, l => TranslateThrough(system, systemCode, l)), systemCode)
  }

  /** The deprecated two-argument constructor: English home language and
      the default diagnoses system. */
  function MakeLegacyCategory(name: string, systemCode: string, defaultSystem: TitleLookup): (c: Category)
    ensures c.titled.home == English
    ensures c.systemCode == systemCode && c.titled.title == name
    ensures forall l :: c.titled.getter(l) == TranslateThrough(defaultSystem, systemCode, l)
  {
    MakeCategory(name, systemCode, English, defaultSystem)
  }

  /** `getName()`: the title in the category's own home language. */
  function Name(c: Category): (r: Result<string, Error>)
    ensures r == TitleIn(c.titled, c.titled.home)
    ensures r == Success(c.titled.title)
  {
    TitleIn(c.titled, c.titled.home)
  }

  /** `getSystemCode()` and the home-language title return the constructor
      arguments without consulting the system at all: any two systems give
      the same answers. */
  lemma HomeTitleNeedsNoSystem(name: string, code: string, lang: Language, s1: TitleLookup, s2: TitleLookup)
    ensures TitleIn(MakeCategory(name, code, lang, s1).titled, lang) == Success(name)
    ensures TitleIn(MakeCategory(name, code, lang, s2).titled, lang) == Success(name)
    ensures Name(MakeCategory(name, code, lang, s1)) == Success(name)
    ensures MakeCategory(name, code, lang, s1).systemCode == code
  {
  }

  /** In another language the title is what the system returns for the
      category's id in that language, read in that language. When the
      system answers with a value whose home is that language, the result
      is its stored title. */
  lemma OtherTitleComesFromSystem(name: string, code: string, lang: Language, system: TitleLookup, l: Language, t: Titled)
    requires l != lang
    requires system(code, l) == Success(t) && t.home == l
    ensures TitleIn(MakeCategory(name, code, lang, system).titled, l) == Success(t.title)
  {
  }

  /** A failure of the system's lookup surfaces unchanged. */
  lemma OtherTitleFailureFromSystem(name: string, code: string, lang: Language, system: TitleLookup, l: Language)
    requires l != lang
    requires system(code, l).Failure?
    ensures TitleIn(MakeCategory(name, code, lang, system).titled, l) == Failure(system(code, l).error)
  {
  }
}

=== FILE: errors.dfy ===
/** The failures the core can surface, one constructor per Java exception
    class that escapes it. `DiagnosesSystemException` keeps the distinction
    between a 404 from the ICD API and every other cause. */
module Errors {

  /** Why a `DiagnosesSystemException` other than "not found" was raised. */
  datatype Reason =
    | MissingCredentials          // a client credential was not set
    | ErrorStatus(status: int)    // a non-200 status other than 404
    | Unreachable                 // transport failure (IOException, InterruptedException, timeout)
    | NoAccessToken               // token reply without `access_token`
    | NoLatestRelease             // release reply without `latestRelease`
    | NotACategory(category: string)

  datatype Error =
    | NotFound(path: string)      // "ICD API Not found"
    | SystemError(reason: Reason) // any other DiagnosesSystemException
    | Unsupported                 // UnsupportedOperationException
    | UnknownLanguage(code: string) // EnumConstantNotPresentException
    | MissingField(name: string)  // org.json JSONException: key not found
    | IndexOutOfBounds            // StringIndexOutOfBoundsException
    | NullPointer                 // NullPointerException
    | InvalidStream               // deserialization of a stream writeObject did not produce
}

=== FILE: icd11_client.dfy ===
/** The ICD-11 diagnoses system (`ICD11DiagnosesSystem`) with its network
    abstracted away: every GET is a call of an `Api` function from request
    to exchange, and the token POST a call of a `TokenPost` function. The
    client's mutable parameter map and default language are a `Client`
    value threaded through the operations that change it. */
module ICD11Client {
  import opened Wrappers
  import opened Errors
  import opened JavaStrings
  import opened ICDLanguages
  import opened Titles
  import opened CodedEntities
  import opened Categories
  import opened Responses

  /** `CLIENT_ID_KEY`: the Java constant's key, spelled `CLIEND_ID`. */
  const ClientIdKey: string := "CLIEND_ID"
  const ClientSecretKey: string := "CLIENT_SECRET"
  const TokenKey: string := "CLIENT_TOKEN"
  const ReleaseKey: string := "LATEST_RELEASE_NAME"

  /** The prefix `initRelease` strips from the `latestRelease` URI. */
  const ReleasePrefix: string := "http://id.who.int/icd/release/11/"

  const StatusOk: int := 200
  const StatusNotFound: int := 404

  /** The system's state: the parameter map and the default language. */
  datatype Client = Client(data: map<string, string>, language: Language)

  /** `new ICD11DiagnosesSystem()`: an empty map and English. */
  const Fresh: Client := Client(map[], English)

  /** One GET against the API: the relative path, the `Accept-Language`
      header and the bearer token (`null` in Java when none is stored). */
  datatype Request = Request(path: string, language: Language, token: Option<string>)

  /** The outcome of sending a request: a status with the parsed body, or
      a transport failure before any status arrived. */
  datatype Exchange = Received(status: int, body: Response) | Unanswered

  type Api = Request -> Exchange

  /** The client-credentials grant posted to the token endpoint. */
  datatype TokenRequest = TokenRequest(clientId: string, clientSecret: string)

  datatype TokenReply = TokenReply(status: int, accessToken: Option<string>) | TokenUnreachable

  type TokenPost = TokenRequest -> TokenReply

  /** `data.get(key)`. */
  function Get(data: map<string, string>, key: string): (r: Option<string>)
    ensures r.Some? <==> key in data
    ensures r.Some? ==> r.value == data[key]
  {
    if key in data then Some(data[key]) else None
  }

  /** `after` differs from `before` in the value of `key` at most. */
  predicate OnlyKeyChanged(before: Client, after: Client, key: string) {
    && after.language == before.language
    && after.data.Keys == before.data.Keys + {key}
    && forall k :: k in before.data && k != key ==> after.data[k] == before.data[k]
  }

  /** `setParameter(key, value)`: overwrites one entry. */
  function SetParameter(c: Client, key: string, value: string): (r: Client)
    ensures key in r.data && r.data[key] == value
    ensures OnlyKeyChanged(c, r, key)
  {
    c.(data := c.data[key := value])
  }

  /** Setting a key twice keeps the last value; setting two different keys
      commutes. */
  lemma SetParameterOverwrites(c: Client, k1: string, v1: string, k2: string, v2: string)
    ensures SetParameter(SetParameter(c, k1, v1), k1, v2) == SetParameter(c, k1, v2)
    ensures k1 != k2 ==>
      SetParameter(SetParameter(c, k1, v1), k2, v2) == SetParameter(SetParameter(c, k2, v2), k1, v1)
  {
  }

  /** `setLanguage(language)`. */
  function SetLanguage(c: Client, l: Language): (r: Client)
    ensures r.language == l && r.data == c.data
  {
    c.(language := l)
  }

  // ---------------------------------------------------------------------
  // Paths and entity ids

  /** The release stored by `initRelease`, as string concatenation renders
      it: "null" while none is stored. */
  function ReleaseSegment(c: Client): string {
    if ReleaseKey in c.data then c.data[ReleaseKey] else "null"
  }

  /** The path of the release root: `release/11/<release>/mms`. */
  function RootQuery(c: Client): string {
    "release/11/" + ReleaseSegment(c) + "/mms"
  }

  /** `formQuery(category)`: the root path, followed by "/" and the id when
      the id is not empty. */
  function FormQuery(c: Client, category: string): (r: string)
    ensures category == "" ==> r == RootQuery(c)
    ensures category != "" ==> r == RootQuery(c) + "/" + category
  {
    RootQuery(c) + (if category == "" then "" else "/" + category)
  }

  /** The root path is a strict prefix of every entity path, and distinct
      ids give distinct paths. */
  lemma FormQueryExtendsRoot(c: Client, a: string, b: string)
    requires a != ""
    ensures StartsWith(FormQuery(c, a), FormQuery(c, "")) && |FormQuery(c, "")| < |FormQuery(c, a)|
    ensures FormQuery(c, a) == FormQuery(c, b) ==> a == b
  {
    var root := RootQuery(c);
    assert FormQuery(c, a)[..|root|] == root;
    if FormQuery(c, a) == FormQuery(c, b) {
      assert a == FormQuery(c, a)[|root| + 1..];
      assert b == FormQuery(c, b)[|root| + 1..];
    }
  }

  /** The path `processChild` requests for a child id. */
  function ChildQuery(c: Client, childEntity: string): string {
    "release/11/" + ReleaseSegment(c) + "/mms/" + childEntity
  }

  /** `processChild` asks for exactly `formQuery(childId)` whenever the id
      is not empty; for an empty id it keeps a trailing slash. */
  lemma ChildQueryIsFormQuery(c: Client, childEntity: string)
    ensures childEntity != "" ==> ChildQuery(c, childEntity) == FormQuery(c, childEntity)
    ensures childEntity == "" ==> ChildQuery(c, childEntity) == FormQuery(c, "") + "/"
  {
  }

  /** `s.substring(s.indexOf(marker) + 4)` as the client writes it. */
  function IdAfter(s: string, marker: string): (r: Result<string, Error>)
    ensures r.Failure? ==> r.error == IndexOutOfBounds
    ensures r.Success? <==> IndexOf(s, marker) + 4 <= |s|
    ensures r.Success? ==> |r.value| == |s| - (IndexOf(s, marker) + 4)
    ensures r.Success? ==> s[|s| - |r.value|..] == r.value
  {
    var sub := SubstringFrom(s, IndexOf(s, marker) + 4);
    if sub.Some? then Success(sub.value) else Failure(IndexOutOfBounds)
  }

  /** The id a `stemId` names: what follows "mms" and one more character. */
  function StemEntityId(stemId: string): Result<string, Error> {
    IdAfter(stemId, "mms")
  }

  /** The id a child URI names: what follows "mms/". */
  function ChildEntityId(childUri: string): Result<string, Error> {
    IdAfter(childUri, "mms/")
  }

  /** The URI under which the API names entity `id`. */
  function EntityUri(p: string, id: string): string {
    p + "mms/" + id
  }

  /** No occurrence of "mms" in `EntityUri(p, id)` starts inside `p` when
      `p` itself has none: a window wholly inside `p` would be one in `p`,
      and one that straddles the join reads the "mm" of "mms/" where it
      needs its "s". */
  lemma NoMarkerBeforeJoin(p: string, id: string, j: int)
    requires !Contains(p, "mms")
    requires 0 <= j < |p|
    ensures !OccursAt(EntityUri(p, id), "mms", j)
  {
    var s := EntityUri(p, id);
    assert s == p + ("mms/" + id);
    if j + 3 <= |p| {
      assert s[j..j + 3] == p[j..j + 3];
      assert !OccursAt(p, "mms", j);
    } else {
      assert s[|p|] == 'm' && s[|p| + 1] == 'm';
      assert s[j..j + 3][2] == s[j + 2] != 's';
    }
  }

  /** Before the "mms/" that follows `p`, neither marker can occur when `p`
      has no "mms". */
  lemma MarkerFirstAfter(p: string, id: string, marker: string)
    requires !Contains(p, "mms")
    requires marker == "mms" || marker == "mms/"
    ensures IndexOf(EntityUri(p, id), marker) == |p|
  {
    var s := EntityUri(p, id);
    assert s == p + ("mms/" + id);
    forall j | 0 <= j < |p| ensures !OccursAt(s, marker, j) {
      NoMarkerBeforeJoin(p, id, j);
      assert s[j..j + |marker|][..3] == s[j..j + 3];
      assert marker[..3] == "mms";
    }
    assert StartsWith("mms/" + id, marker);
    IndexOfAtJoin(p, "mms/" + id, marker);
  }

  /** Extraction inverts `EntityUri`: the id after "mms/" comes back
      exactly, from a `stemId` and from a child URI alike, whenever the part
      before it has no "mms" (as in "http://id.who.int/icd/release/11/2024-01/"). */
  lemma EntityIdRoundTrip(p: string, id: string)
    requires !Contains(p, "mms")
    ensures StemEntityId(EntityUri(p, id)) == Success(id)
    ensures ChildEntityId(EntityUri(p, id)) == Success(id)
  {
    var s := EntityUri(p, id);
    MarkerFirstAfter(p, id, "mms");
    MarkerFirstAfter(p, id, "mms/");
    assert s[|p| + 4..] == id;
  }

  /** A `stemId` without "mms" silently loses its first three characters,
      and one shorter than three fails. */
  lemma StemIdWithoutMarker(s: string)
    requires !Contains(s, "mms")
    ensures |s| >= 3 ==> StemEntityId(s) == Success(s[3..])
    ensures |s| < 3 ==> StemEntityId(s) == Failure(IndexOutOfBounds)
  {
  }

  // ---------------------------------------------------------------------
  // Requests

  /** `getAPIResponse(uri, language)`: one GET carrying the stored token; a
      404 is "not found", any other status but 200 is an error, and only a
      200 yields the parsed body. */
  function ApiResponse(c: Client, api: Api, path: string, lang: Language): (r: Result<Response, Error>)
    ensures var x := api(Request(path, lang, Get(c.data, TokenKey)));
            && (r.Success? <==> x.Received? && x.status == StatusOk)
            && (r.Success? ==> r.value == x.body)
            && (r == Failure(NotFound(path)) <==> x.Received? && x.status == StatusNotFound)
            && (x.Received? && x.status != StatusOk && x.status != StatusNotFound ==>
                  r == Failure(SystemError(ErrorStatus(x.status))))
            && (x.Unanswered? ==> r == Failure(SystemError(Unreachable)))
  {
    match api(Request(path, lang, Get(c.data, TokenKey)))
    case Unanswered => Failure(SystemError(Unreachable))
    case Received(status, body) =>
      if status == StatusNotFound then Failure(NotFound(path))
      else if status != StatusOk then Failure(SystemError(ErrorStatus(status)))
      else Success(body)
  }

  // ---------------------------------------------------------------------
  // Initialisation

  /** Both credentials are stored. */
  predicate HasCredentials(c: Client) {
    ClientIdKey in c.data && ClientSecretKey in c.data
  }

  /** `initToken` as written: the guard rejects only a map missing BOTH
      credentials; with one of them missing, `URLEncoder.encode(null, ...)`
      throws NullPointerException while the request is being built. */
  function InitTokenAsWritten(c: Client, post: TokenPost): (r: Result<Client, Error>)
    ensures r == Failure(SystemError(MissingCredentials)) <==>
              ClientIdKey !in c.data && ClientSecretKey !in c.data
    ensures r == Failure(NullPointer) <==> (ClientIdKey in c.data) != (ClientSecretKey in c.data)
    ensures r.Success? ==> HasCredentials(c)
  {
    if ClientIdKey !in c.data && ClientSecretKey !in c.data then Failure(SystemError(MissingCredentials))
    else if !HasCredentials(c) then Failure(NullPointer)
    else RequestToken(c, post)
  }

  /** `initToken` as evidently intended: either missing credential is the
      configuration error raised before any request. */
  function InitToken(c: Client, post: TokenPost): (r: Result<Client, Error>)
    ensures r == Failure(SystemError(MissingCredentials)) <==> !HasCredentials(c)
    ensures r.Success? <==>
              HasCredentials(c)
              && var reply := post(TokenRequest(c.data[ClientIdKey], c.data[ClientSecretKey]));
              reply.TokenReply? && reply.status == StatusOk && reply.accessToken.Some?
    ensures r.Success? ==>
              TokenKey in r.value.data &&
              r.value.data[TokenKey]
                == post(TokenRequest(c.data[ClientIdKey], c.data[ClientSecretKey])).accessToken.value
    ensures r.Success? ==> OnlyKeyChanged(c, r.value, TokenKey)
  {
    if !HasCredentials(c) then Failure(SystemError(MissingCredentials))
    else RequestToken(c, post)
  }

  /** The token exchange both versions share once credentials are stored:
      any status but 200 is an error, a reply without `access_token` too,
      and otherwise only the token key is set. */
  function RequestToken(c: Client, post: TokenPost): (r: Result<Client, Error>)
    requires HasCredentials(c)
    ensures r != Failure(SystemError(MissingCredentials)) && r != Failure(NullPointer)
    ensures var reply := post(TokenRequest(c.data[ClientIdKey], c.data[ClientSecretKey]));
            && (reply.TokenUnreachable? ==> r == Failure(SystemError(Unreachable)))
            && (r.Success? <==> reply.TokenReply? && reply.status == StatusOk && reply.accessToken.Some?)
            && (r.Success? ==> r.value == SetParameter(c, TokenKey, reply.accessToken.value))
            && (reply.TokenReply? && reply.status != StatusOk ==> r == Failure(SystemError(ErrorStatus(reply.status))))
            && (reply.TokenReply? && reply.status == StatusOk && reply.accessToken.None? ==>
                  r == Failure(SystemError(NoAccessToken)))
  {
    match post(TokenRequest(c.data[ClientIdKey], c.data[ClientSecretKey]))
    case TokenUnreachable => Failure(SystemError(Unreachable))
    case TokenReply(status, token) =>
      if status != StatusOk then Failure(SystemError(ErrorStatus(status)))
      else if token.None? then Failure(SystemError(NoAccessToken))
      else Success(SetParameter(c, TokenKey, token.value))
  }

  /** The guard's `&&` lets a map holding only the client id through to a
      NullPointerException, where the intended check reports the missing
      secret as a configuration error. */
  lemma InitTokenGuardCounterexample(post: TokenPost)
    ensures InitTokenAsWritten(Client(map[ClientIdKey := "id"], English), post) == Failure(NullPointer)
    ensures InitToken(Client(map[ClientIdKey := "id"], English), post) == Failure(SystemError(MissingCredentials))
  {
    assert ClientSecretKey != ClientIdKey;
  }

  /** With both credentials stored the two versions agree. */
  lemma InitTokenAgreesWithCredentials(c: Client, post: TokenPost)
    requires HasCredentials(c)
    ensures InitTokenAsWritten(c, post) == InitToken(c, post)
  {
  }

  /** The release id `initRelease` stores: the value with every occurrence
      of the release prefix and of "/mms" removed. */
  function NormaliseRelease(latest: string): string {
    RemoveAll(RemoveAll(latest, ReleasePrefix), "/mms")
  }

  /** A release id such as "2024-01": digits and dashes. */
  predicate IsReleaseName(id: string) {
    forall i :: 0 <= i < |id| ==> ('0' <= id[i] <= '9' || id[i] == '-')
  }

  /** The `latestRelease` URI the API gives for a release id. */
  function ReleaseUri(id: string): string {
    ReleasePrefix + id + "/mms"
  }

  /** Normalisation inverts `ReleaseUri`. */
  lemma NormaliseReleaseRoundTrip(id: string)
    requires IsReleaseName(id)
    ensures NormaliseRelease(ReleaseUri(id)) == id
  {
    assert ReleaseUri(id) == ReleasePrefix + (id + "/mms");
    RemoveAllLeading(ReleasePrefix, id + "/mms");
    RemoveAllAbsent(id + "/mms", ReleasePrefix);
    RemoveAllSkips(id, "/mms", "/mms");
    RemoveAllLeading("/mms", []);
    assert "/mms" + [] == "/mms";
    assert id + [] == id;
  }

  lemma NormaliseReleaseExample()
    ensures NormaliseRelease("http://id.who.int/icd/release/11/2024-01/mms") == "2024-01"
  {
    assert ReleaseUri("2024-01") == "http://id.who.int/icd/release/11/2024-01/mms";
    NormaliseReleaseRoundTrip("2024-01");
  }

  /** The path `initRelease` asks for. */
  const ReleaseQuery: string := "release/11/mms"

  /** `initRelease(language)`: fails without `latestRelease`, otherwise
      stores its normalised value under the release key and nothing else. */
  function InitRelease(c: Client, api: Api, lang: Language): (r: Result<Client, Error>)
    ensures var resp := ApiResponse(c, api, ReleaseQuery, lang);
            && (resp.Failure? ==> r == Failure(resp.error))
            && (resp.Success? && resp.value.latestRelease.None? ==> r == Failure(SystemError(NoLatestRelease)))
            && (r.Success? <==> resp.Success? && resp.value.latestRelease.Some?)
            && (r.Success? ==> ReleaseKey in r.value.data && r.value.data[ReleaseKey] == NormaliseRelease(resp.value.latestRelease.value))
    ensures r.Success? ==> OnlyKeyChanged(c, r.value, ReleaseKey)
  {
    var resp :- ApiResponse(c, api, ReleaseQuery, lang);
    var latest :- Need(resp.latestRelease, SystemError(NoLatestRelease));
    Success(SetParameter(c, ReleaseKey, NormaliseRelease(latest)))
  }

  /** `init()`: the token first, then the release, asked in the default
      language with the new token. The token step is `initToken` as
      written, so a map holding one credential ends in the
      NullPointerException, which `init()` does not catch. */
  function Init(c: Client, post: TokenPost, api: Api): (r: Result<Client, Error>)
    ensures ClientIdKey !in c.data && ClientSecretKey !in c.data ==> r == Failure(SystemError(MissingCredentials))
    ensures (ClientIdKey in c.data) != (ClientSecretKey in c.data) ==> r == Failure(NullPointer)
    ensures r.Success? ==> HasCredentials(c) && InitTokenAsWritten(c, post).Success?
    ensures HasCredentials(c) ==>
              var t := InitTokenAsWritten(c, post);
              && (t.Failure? ==> r == Failure(t.error))
              && (t.Success? ==> r == InitRelease(t.value, api, c.language))
    ensures r.Success? ==> r == InitRelease(InitTokenAsWritten(c, post).value, api, c.language)
    ensures r.Success? ==> r.value.language == c.language
    ensures r.Success? ==> r.value.data.Keys == c.data.Keys + {TokenKey, ReleaseKey}
    ensures r.Success? ==> forall k :: k in c.data && k != TokenKey && k != ReleaseKey ==> r.value.data[k] == c.data[k]
  {
    var withToken :- InitTokenAsWritten(c, post);
    InitRelease(withToken, api, c.language)
  }

  /** `init()` composed with the corrected token step: any missing
      credential is the configuration error. */
  function InitIntended(c: Client, post: TokenPost, api: Api): (r: Result<Client, Error>)
    ensures !HasCredentials(c) ==> r == Failure(SystemError(MissingCredentials))
    ensures r.Success? ==> InitToken(c, post).Success?
    ensures HasCredentials(c) ==>
              var t := InitToken(c, post);
              && (t.Failure? ==> r == Failure(t.error))
              && (t.Success? ==> r == InitRelease(t.value, api, c.language))
    ensures r.Success? ==> r == InitRelease(InitToken(c, post).value, api, c.language)
    ensures r.Success? ==> r.value.language == c.language
    ensures r.Success? ==> r.value.data.Keys == c.data.Keys + {TokenKey, ReleaseKey}
    ensures r.Success? ==> forall k :: k in c.data && k != TokenKey && k != ReleaseKey ==> r.value.data[k] == c.data[k]
  {
    var withToken :- InitToken(c, post);
    InitRelease(withToken, api, c.language)
  }

  /** The two compositions differ only on a map missing exactly one
      credential: there `init()` ends in a NullPointerException where the
      intended version reports the configuration error. */
  lemma InitAgreesWithIntended(c: Client, post: TokenPost, api: Api)
    ensures (ClientIdKey in c.data) == (ClientSecretKey in c.data) ==> Init(c, post, api) == InitIntended(c, post, api)
    ensures (ClientIdKey in c.data) != (ClientSecretKey in c.data) ==>
              && Init(c, post, api) == Failure(NullPointer)
              && InitIntended(c, post, api) == Failure(SystemError(MissingCredentials))
  {
    if HasCredentials(c) {
      InitTokenAgreesWithCredentials(c, post);
    }
  }

  // ---------------------------------------------------------------------
  // Entities built from responses

  /** `getTitleByEntityID(entity, language)`: the entity's title in
      `language`, usable in that language only. */
  function TitleByEntityId(c: Client, api: Api, entity: string, lang: Language): (r: Result<Titled, Error>)
    ensures var resp := ApiResponse(c, api, FormQuery(c, entity), lang);
            && (r.Success? <==> resp.Success? && resp.value.title.Some?)
            && (r.Success? ==> r.value == Untranslatable(resp.value.title.value, lang))
            && (resp.Failure? ==> r == Failure(resp.error))
            && (resp.Success? && resp.value.title.None? ==> r == Failure(MissingField("title")))
  {
    var resp :- ApiResponse(c, api, FormQuery(c, entity), lang);
    var title :- TitleOf(resp);
    Success(Untranslatable(title, lang))
  }

  /** The client as a `DiagnosesSystem`, as the categories it builds see it. */
  function AsSystem(c: Client, api: Api): TitleLookup {
    (entity, l) => TitleByEntityId(c, api, entity, l)
  }

  /** The object a listing holds: a category, or a diagnosis or symptom
      with the code, title and language its constructor receives. */
  datatype Item = CategoryItem(category: Category) | EntityItem(entity: CodedEntity, title: string, language: Language)

  /** A `Map.Entry<Object, String>`: the object and its entity id. */
  datatype Pair = Pair(item: Item, id: string)

  /** The entity type of a built object. */
  function TypeOf(item: Item): EntityType {
    match item
    case CategoryItem(_) => CategoryType
    case EntityItem(e, _, _) => if e.kind == Diagnosis then DiagnosisType else SymptomType
  }

  /** `createPairByResponse(response, id, language)`: classify the response
      and build the matching object, paired with `id`. */
  function CreatePair(c: Client, api: Api, resp: Response, id: string, lang: Language): (r: Result<Pair, Error>)
    ensures r.Success? <==> ObjectType(resp).Success? && resp.title.Some?
    ensures ObjectType(resp).Failure? ==> r == Failure(ObjectType(resp).error)
    ensures ObjectType(resp).Success? && resp.title.None? ==> r == Failure(MissingField("title"))
    ensures r.Success? ==> r.value.id == id && TypeOf(r.value.item) == ObjectType(resp).value
    ensures r.Success? && r.value.item.CategoryItem? ==>
              r.value.item.category == MakeCategory(resp.title.value, id, lang, AsSystem(c, api))
    ensures r.Success? && r.value.item.EntityItem? ==>
              && r.value.item.entity.icd11Code == resp.code.value
              && r.value.item.title == resp.title.value
              && r.value.item.language == lang
  {
    var t :- ObjectType(resp);
    match t
    case CategoryType =>
      var title :- TitleOf(resp);
      Success(Pair(CategoryItem(MakeCategory(title, id, lang, AsSystem(c, api))), id))
    case DiagnosisType =>
      var title :- TitleOf(resp);
      Success(Pair(EntityItem(CodedEntity(Diagnosis, resp.code.value), title, lang), id))
    case SymptomType =>
      var title :- TitleOf(resp);
      Success(Pair(EntityItem(CodedEntity(Symptom, resp.code.value), title, lang), id))
  }

  /** A category built by the client titles itself in any other language by
      asking the client for its id in that language: the fetched title
      comes back, never the rejection of an untranslatable title. */
  lemma CategoryTranslationThroughClient(c: Client, api: Api, name: string, id: string, home: Language, l: Language)
    requires l != home
    ensures var r := TitleIn(MakeCategory(name, id, home, AsSystem(c, api)).titled, l);
            var resp := ApiResponse(c, api, FormQuery(c, id), l);
            && (resp.Success? && resp.value.title.Some? ==> r == Success(resp.value.title.value))
            && r != Failure(Unsupported)
  {
  }

  /** The deprecated two-argument category constructor is bound to a fresh
      system: its translations go out without a token and with the release
      "null" in the path. */
  lemma LegacyCategoryUsesFreshSystem(name: string, id: string, api: Api, l: Language)
    requires l != English && id != ""
    ensures var r := TitleIn(MakeLegacyCategory(name, id, AsSystem(Fresh, api)).titled, l);
            var x := api(Request("release/11/null/mms/" + id, l, None));
            x.Received? && x.status == StatusOk && x.body.title.Some? ==> r == Success(x.body.title.value)
  {
    assert FormQuery(Fresh, id) == "release/11/null/mms/" + id;
  }

  /** `processChild(childURI, language)`: extract the child id, fetch the
      child, build its pair. */
  function ProcessChild(c: Client, api: Api, lang: Language, childUri: string): (r: Result<Pair, Error>)
    ensures r.Success? ==> ChildEntityId(childUri) == Success(r.value.id)
    ensures r.Success? ==>
              var resp := ApiResponse(c, api, ChildQuery(c, r.value.id), lang);
              resp.Success? && ObjectType(resp.value) == Success(TypeOf(r.value.item))
    ensures ChildEntityId(childUri).Failure? ==> r == Failure(IndexOutOfBounds)
    ensures ChildEntityId(childUri).Success? ==>
              var id := ChildEntityId(childUri).value;
              var resp := ApiResponse(c, api, ChildQuery(c, id), lang);
              && (resp.Failure? ==> r == Failure(resp.error))
              && (resp.Success? ==> r == CreatePair(c, api, resp.value, id, lang))
  {
    var id :- ChildEntityId(childUri);
    var resp :- ApiResponse(c, api, ChildQuery(c, id), lang);
    CreatePair(c, api, resp, id, lang)
  }

  /** `getCategoryListing(category, language)`: the category's children in
      upstream order, each classified and paired with its id; a response
      without `child` is not a category. */
  function CategoryListing(c: Client, api: Api, category: string, lang: Language): (r: Result<seq<Pair>, Error>)
    ensures var resp := ApiResponse(c, api, FormQuery(c, category), lang);
            && (resp.Failure? ==> r == Failure(resp.error))
            && (resp.Success? && resp.value.child.None? ==> r == Failure(SystemError(NotACategory(category))))
            && (r.Success? ==>
                  && resp.Success? && resp.value.child.Some?
                  && |r.value| == |resp.value.child.value|
                  && forall i :: 0 <= i < |r.value| ==>
                       && ChildEntityId(resp.value.child.value[i]) == Success(r.value[i].id)
                       && ProcessChild(c, api, lang, resp.value.child.value[i]) == Success(r.value[i]))
            && (resp.Success? && resp.value.child.Some? ==>
                  (r.Success? <==> forall i :: 0 <= i < |resp.value.child.value| ==>
                                     ProcessChild(c, api, lang, resp.value.child.value[i]).Success?))
  {
    var resp :- ApiResponse(c, api, FormQuery(c, category), lang);
    if resp.child.None? then Failure(SystemError(NotACategory(category)))
    else MapUntilFailure(childUri => ProcessChild(c, api, lang, childUri), resp.child.value)
  }

  /** `getParentCategoryListing(language)`: the listing of the root. */
  function ParentCategoryListing(c: Client, api: Api, lang: Language): (r: Result<seq<Pair>, Error>)
    ensures r == CategoryListing(c, api, "", lang)
  {
    CategoryListing(c, api, "", lang)
  }

  /** The parent listing asks for the release root, and a root without
      `child` fails as "not a category". */
  lemma ParentListingIsRootListing(c: Client, api: Api, lang: Language)
    ensures var resp := ApiResponse(c, api, RootQuery(c), lang);
            resp.Success? && resp.value.child.None? ==>
              ParentCategoryListing(c, api, lang) == Failure(SystemError(NotACategory("")))
    ensures ParentCategoryListing(c, api, lang).Success? ==>
              |ParentCategoryListing(c, api, lang).value| == |ApiResponse(c, api, RootQuery(c), lang).value.child.value|
  {
  }

  /** A listing of children whose URIs are `EntityUri(p, ids[i])` pairs the
      i-th object with exactly `ids[i]`, in order. */
  lemma ListingKeepsChildIds(c: Client, api: Api, category: string, lang: Language, p: string, ids: seq<string>)
    requires !Contains(p, "mms")
    requires var resp := ApiResponse(c, api, FormQuery(c, category), lang);
             resp.Success? && resp.value.child == Some(seq(|ids|, i requires 0 <= i < |ids| => EntityUri(p, ids[i])))
    requires CategoryListing(c, api, category, lang).Success?
    ensures var r := CategoryListing(c, api, category, lang).value;
            |r| == |ids| && forall i :: 0 <= i < |ids| ==> r[i].id == ids[i]
  {
    var r := CategoryListing(c, api, category, lang).value;
    var uris := ApiResponse(c, api, FormQuery(c, category), lang).value.child.value;
    forall i | 0 <= i < |ids| ensures r[i].id == ids[i] {
      assert uris[i] == EntityUri(p, ids[i]);
      EntityIdRoundTrip(p, ids[i]);
    }
  }

  /** One search hit: its `stemId` names the entity, which is fetched and
      built like a child. */
  function ProcessHit(c: Client, api: Api, lang: Language, hit: Hit): (r: Result<Pair, Error>)
    ensures r.Success? ==> hit.stemId.Some? && StemEntityId(hit.stemId.value) == Success(r.value.id)
    ensures hit.stemId.None? ==> r == Failure(MissingField("stemId"))
    ensures r.Success? ==>
              var resp := ApiResponse(c, api, FormQuery(c, r.value.id), lang);
              resp.Success? && ObjectType(resp.value) == Success(TypeOf(r.value.item))
    ensures hit.stemId.Some? && StemEntityId(hit.stemId.value).Failure? ==> r == Failure(IndexOutOfBounds)
    ensures hit.stemId.Some? && StemEntityId(hit.stemId.value).Success? ==>
              var id := StemEntityId(hit.stemId.value).value;
              var resp := ApiResponse(c, api, FormQuery(c, id), lang);
              && (resp.Failure? ==> r == Failure(resp.error))
              && (resp.Success? ==> r == CreatePair(c, api, resp.value, id, lang))
  {
    var stemId :- Need(hit.stemId, MissingField("stemId"));
    var id :- StemEntityId(stemId);
    var resp :- ApiResponse(c, api, FormQuery(c, id), lang);
    CreatePair(c, api, resp, id, lang)
  }

  /** The path of a search; `encode` is `URLEncoder.encode(query, UTF_8)`. */
  function SearchQuery(c: Client, encode: string -> string, query: string): string {
    FormQuery(c, "search?q=" + encode(query))
  }

  /** `getSearchResult(query, language)`: the hits in upstream order, each
      fetched, classified and paired with its id. */
  function SearchResult(c: Client, api: Api, encode: string -> string, query: string, lang: Language): (r: Result<seq<Pair>, Error>)
    ensures var resp := ApiResponse(c, api, SearchQuery(c, encode, query), lang);
            && (resp.Failure? ==> r == Failure(resp.error))
            && (resp.Success? && resp.value.destinationEntities.None? ==>
                  r == Failure(MissingField("destinationEntities")))
            && (r.Success? ==>
                  && resp.Success? && resp.value.destinationEntities.Some?
                  && |r.value| == |resp.value.destinationEntities.value|
                  && forall i :: 0 <= i < |r.value| ==>
                       ProcessHit(c, api, lang, resp.value.destinationEntities.value[i]) == Success(r.value[i]))
            && (resp.Success? && resp.value.destinationEntities.Some? ==>
                  (r.Success? <==> forall i :: 0 <= i < |resp.value.destinationEntities.value| ==>
                                     ProcessHit(c, api, lang, resp.value.destinationEntities.value[i]).Success?))
  {
    var resp :- ApiResponse(c, api, SearchQuery(c, encode, query), lang);
    var hits :- Need(resp.destinationEntities, MissingField("destinationEntities"));
    MapUntilFailure(hit => ProcessHit(c, api, lang, hit), hits)
  }

  /** Every object a search or listing returns is a category, a diagnosis
      or a symptom, as its own response classifies it. */
  lemma SearchResultsAreClassified(c: Client, api: Api, encode: string -> string, query: string, lang: Language)
    requires SearchResult(c, api, encode, query, lang).Success?
    ensures var r := SearchResult(c, api, encode, query, lang).value;
            forall i :: 0 <= i < |r| ==>
              var resp := ApiResponse(c, api, FormQuery(c, r[i].id), lang);
              resp.Success? && ObjectType(resp.value) == Success(TypeOf(r[i].item))
  {
    var r := SearchResult(c, api, encode, query, lang).value;
    var hits := ApiResponse(c, api, SearchQuery(c, encode, query), lang).value.destinationEntities.value;
    forall i | 0 <= i < |r|
      ensures var resp := ApiResponse(c, api, FormQuery(c, r[i].id), lang);
              resp.Success? && ObjectType(resp.value) == Success(TypeOf(r[i].item))
    {
      assert ProcessHit(c, api, lang, hits[i]) == Success(r[i]);
    }
  }

  /** `getByICD11Code(code, language)`: the code-info query yields a
      `stemId`, whose entity is fetched and built. */
  function ByIcd11Code(c: Client, api: Api, code: string, lang: Language): (r: Result<Item, Error>)
    ensures var info := ApiResponse(c, api, FormQuery(c, "") + "/codeinfo/" + code, lang);
            && (info.Failure? ==> r == Failure(info.error))
            && (info.Success? && info.value.stemId.None? ==> r == Failure(MissingField("stemId")))
            && (r.Success? ==>
                  && info.Success? && info.value.stemId.Some?
                  && var id := StemEntityId(info.value.stemId.value);
                  && id.Success?
                  && var resp := ApiResponse(c, api, FormQuery(c, id.value), lang);
                  && resp.Success?
                  && ObjectType(resp.value) == Success(TypeOf(r.value))
                  && (r.value.EntityItem? ==> r.value.entity.icd11Code == resp.value.code.value))
    ensures var info := ApiResponse(c, api, FormQuery(c, "") + "/codeinfo/" + code, lang);
            info.Success? && info.value.stemId.Some? ==>
              var id := StemEntityId(info.value.stemId.value);
              && (id.Failure? ==> r == Failure(IndexOutOfBounds))
              && (id.Success? ==>
                    var resp := ApiResponse(c, api, FormQuery(c, id.value), lang);
                    && (resp.Failure? ==> r == Failure(resp.error))
                    && (resp.Success? ==>
                          var pair := CreatePair(c, api, resp.value, id.value, lang);
                          && (pair.Failure? ==> r == Failure(pair.error))
                          && (pair.Success? ==> r == Success(pair.value.item))))
  {
    var info :- ApiResponse(c, api, FormQuery(c, "") + "/codeinfo/" + code, lang);
    var stemId :- Need(info.stemId, MissingField("stemId"));
    var id :- StemEntityId(stemId);
    var resp :- ApiResponse(c, api, FormQuery(c, id), lang);
    var pair :- CreatePair(c, api, resp, id, lang);
    Success(pair.item)
  }

  /** When the code-info `stemId` is the URI `EntityUri(p, id)`, the lookup
      fetches exactly `id`: it fails as that fetch fails, and otherwise
      succeeds iff the fetched response builds an object, which it returns. */
  lemma ByIcd11CodeFetchesStemEntity(c: Client, api: Api, code: string, lang: Language, p: string, id: string)
    requires !Contains(p, "mms")
    requires var info := ApiResponse(c, api, FormQuery(c, "") + "/codeinfo/" + code, lang);
             info.Success? && info.value.stemId == Some(EntityUri(p, id))
    ensures var r := ByIcd11Code(c, api, code, lang);
            var resp := ApiResponse(c, api, FormQuery(c, id), lang);
            && (resp.Failure? ==> r == Failure(resp.error))
            && (resp.Success? ==> (r.Success? <==> CreatePair(c, api, resp.value, id, lang).Success?))
            && (resp.Success? && r.Success? ==> r.value == CreatePair(c, api, resp.value, id, lang).value.item)
  {
    EntityIdRoundTrip(p, id);
  }
}

=== FILE: icd_language.dfy ===
/** The closed catalog of languages the ICD-11 API serves, each tagged with
    its two-letter ISO 639-1 code (`ICDLanguage`). */
module ICDLanguages {
  import opened Wrappers
  import opened Errors
  import opened JavaStrings

  datatype Language =
    | Arabic | Chinese | Czech | English | French | Kazakh | Portuguese
    | Russian | Slovak | Spanish | Swedish | Turkish | Uzbek

  /** `getCode()`: the ISO 639-1 code declared with each constant. */
  function Code(l: Language): (r: string)
    ensures |r| == 2
    ensures forall i :: 0 <= i < |r| ==> IsLowerAsciiLetter(r[i])
  {
    match l
    case Arabic => "ar"
    case Chinese => "zh"
    case Czech => "cs"
    case English => "en"
    case French => "fr"
    case Kazakh => "kk"
    case Portuguese => "pt"
    case Russian => "ru"
    case Slovak => "sk"
    case Spanish => "es"
    case Swedish => "sv"
    case Turkish => "tr"
    case Uzbek => "uz"
  }

  /** `values()`: the constants in declaration order. */
  const Values: seq<Language> :=
    [Arabic, Chinese, Czech, English, French, Kazakh, Portuguese,
     Russian, Slovak, Spanish, Swedish, Turkish, Uzbek]

  /** `ordinal()`: the position of each constant in declaration order. */
  function Ordinal(l: Language): (i: nat)
    ensures i < |Values| && Values[i] == l
  {
    match l
    case Arabic => 0
    case Chinese => 1
    case Czech => 2
    case English => 3
    case French => 4
    case Kazakh => 5
    case Portuguese => 6
    case Russian => 7
    case Slovak => 8
    case Spanish => 9
    case Swedish => 10
    case Turkish => 11
    case Uzbek => 12
  }

  /** The thirteen codes are pairwise distinct. */
  lemma CodeInjective(a: Language, b: Language)
    ensures Code(a) == Code(b) ==> a == b
  {
  }

  /** The loop of `getByCode` from index `i` on: the first constant whose
      code equals `code` ignoring case. */
  function FindFrom(code: string, i: nat): (r: Result<Language, Error>)
    requires i <= |Values|
    ensures r.Success? ==> EqualsIgnoreCase(code, Code(r.value))
    ensures r.Failure? <==> forall j :: i <= j < |Values| ==> !EqualsIgnoreCase(code, Code(Values[j]))
    ensures r.Failure? ==> r.error == UnknownLanguage(code)
    decreases |Values| - i
  {
    if i == |Values| then Failure(UnknownLanguage(code))
    else if EqualsIgnoreCase(code, Code(Values[i])) then Success(Values[i])
    else FindFrom(code, i + 1)
  }

  /** `getByCode(code)`: the language whose code equals `code` ignoring
      case; EnumConstantNotPresentException when there is none. */
  function ByCode(code: string): (r: Result<Language, Error>)
    ensures r.Success? ==> EqualsIgnoreCase(code, Code(r.value))
    ensures r.Failure? <==> forall l :: !EqualsIgnoreCase(code, Code(l))
    ensures r.Failure? ==> r.error == UnknownLanguage(code)
  {
    var r := FindFrom(code, 0);
    assert r.Failure? ==> forall l :: !EqualsIgnoreCase(code, Code(l)) by {
      if r.Failure? {
        forall l ensures !EqualsIgnoreCase(code, Code(l)) {
          assert Values[Ordinal(l)] == l;
        }
      }
    }
    r
  }

  /** Any string that matches a language's code ignoring case resolves to
      exactly that language. */
  lemma ByCodeFindsMatch(code: string, l: Language)
    requires EqualsIgnoreCase(code, Code(l))
    ensures ByCode(code) == Success(l)
  {
    var r := ByCode(code);
    var m := r.value;
    forall i | 0 <= i < 2 ensures Code(l)[i] == Code(m)[i] {
      CaseMatchUnique(code[i], Code(l)[i], Code(m)[i]);
    }
    assert Code(l) == Code(m);
    CodeInjective(l, m);
  }

  /** `getByCode(getCode(l)) == l` for every constant. */
  lemma ByCodeRoundTrip(l: Language)
    ensures ByCode(Code(l)) == Success(l)
  {
    ByCodeFindsMatch(Code(l), l);
  }

  /** Upper case of an ASCII string. */
  function AsciiUpper(s: string): (r: string)
    ensures |r| == |s|
    ensures forall i :: 0 <= i < |s| ==> r[i] == ToUpperCase(s[i])
  {
    seq(|s|, i requires 0 <= i < |s| => ToUpperCase(s[i]))
  }

  /** The lookup ignores case: the upper-cased code resolves too. */
  lemma ByCodeIgnoresCase(l: Language)
    ensures ByCode(AsciiUpper(Code(l))) == Success(l)
  {
    ByCodeFindsMatch(AsciiUpper(Code(l)), l);
  }

  lemma RussianByEitherCase()
    ensures ByCode("RU") == Success(Russian)
    ensures ByCode("ru") == Success(Russian)
  {
    assert CharsEqualIgnoreCase('R', 'r') && CharsEqualIgnoreCase('U', 'u');
    ByCodeFindsMatch("RU", Russian);
    ByCodeRoundTrip(Russian);
  }

  /** No code of the catalog starts with `d`, ignoring case. */
  lemma NoCodeStartsWithD(l: Language)
    ensures !EqualsIgnoreCase("de", Code(l))
  {
    var c := Code(l);
    assert c[0] != 'd' && IsLowerAsciiLetter(c[0]);
    assert ToUpperCase('d') == 'D';
    assert !CharsEqualIgnoreCase('d', c[0]);
    assert "de"[0] == 'd';
  }

  /** A code outside the catalog is rejected; German is not served. */
  lemma GermanIsUnknown()
    ensures ByCode("de") == Failure(UnknownLanguage("de"))
  {
    forall l ensures !EqualsIgnoreCase("de", Code(l)) {
      NoCodeStartsWithD(l);
    }
    var r := ByCode("de");
    assert r.Failure?;
  }
}

=== FILE: java_strings.dfy ===
/** The few `java.lang.String` operations the client relies on, written out
    with Java's semantics: `indexOf`, `startsWith`, `substring(int)`,
    `replace(CharSequence, "")`, `equalsIgnoreCase` and `hashCode`. */
module JavaStrings {
  import opened Wrappers

  /** `pat` occurs in `s` starting at index `i`. */
  predicate OccursAt(s: string, pat: string, i: int) {
    0 <= i && i + |pat| <= |s| && s[i..i + |pat|] == pat
  }

  predicate Contains(s: string, pat: string) {
    exists i | 0 <= i <= |s| :: OccursAt(s, pat, i)
  }

  /** `s.indexOf(pat, k)` for a non-negative `k`. */
  function IndexFrom(s: string, pat: string, k: nat): (r: int)
    ensures r == -1 || (k <= r && OccursAt(s, pat, r))
    ensures r == -1 ==> forall j :: k <= j ==> !OccursAt(s, pat, j)
    ensures forall j :: k <= j && (r == -1 || j < r) ==> !OccursAt(s, pat, j)
    decreases |s| - k
  {
    if k + |pat| > |s| then -1
    else if s[k..k + |pat|] == pat then k
    else IndexFrom(s, pat, k + 1)
  }

  /** `s.indexOf(pat)`: the first index where `pat` occurs, or -1. */
  function IndexOf(s: string, pat: string): (r: int)
    ensures r == -1 <==> !Contains(s, pat)
    ensures r != -1 ==> OccursAt(s, pat, r) && forall j :: 0 <= j < r ==> !OccursAt(s, pat, j)
  {
    IndexFrom(s, pat, 0)
  }

  /** The first occurrence of `pat` in `p + t` is where `t` begins when `t`
      starts with `pat` and no earlier window matches. */
  lemma IndexOfAtJoin(p: string, t: string, pat: string)
    requires StartsWith(t, pat)
    requires forall j :: 0 <= j < |p| ==> !OccursAt(p + t, pat, j)
    ensures IndexOf(p + t, pat) == |p|
  {
    assert (p + t)[|p|..|p| + |pat|] == t[..|pat|];
    assert OccursAt(p + t, pat, |p|);
  }

  /** `s.startsWith(prefix)`. */
  predicate StartsWith(s: string, prefix: string) {
    |prefix| <= |s| && s[..|prefix|] == prefix
  }

  /** `s.substring(begin)`; `None` stands for StringIndexOutOfBoundsException. */
  function SubstringFrom(s: string, begin: int): (r: Option<string>)
    ensures r.Some? <==> 0 <= begin <= |s|
    ensures r.Some? ==> s == s[..begin] + r.value
  {
    if 0 <= begin <= |s| then Some(s[begin..]) else None
  }

  /** `s.replace(pat, "")`: every non-overlapping occurrence of `pat`, found
      left to right in the original string, is deleted. */
  function RemoveAll(s: string, pat: string): (r: string)
    ensures |r| <= |s|
    decreases |s|
  {
    if |pat| == 0 || |s| < |pat| then s
    else if s[..|pat|] == pat then RemoveAll(s[|pat|..], pat)
    else [s[0]] + RemoveAll(s[1..], pat)
  }

  /** A leading occurrence of `pat` is deleted and scanning resumes after it. */
  lemma RemoveAllLeading(pat: string, t: string)
    requires |pat| > 0
    ensures RemoveAll(pat + t, pat) == RemoveAll(t, pat)
  {
    assert (pat + t)[..|pat|] == pat;
    assert (pat + t)[|pat|..] == t;
  }

  /** Text that cannot start an occurrence is copied unchanged. */
  lemma {:induction false} RemoveAllSkips(x: string, t: string, pat: string)
    requires |pat| > 0
    requires forall i :: 0 <= i < |x| ==> x[i] != pat[0]
    ensures RemoveAll(x + t, pat) == x + RemoveAll(t, pat)
    decreases |x|
  {
    if |x| == 0 {
      assert x + t == t;
    } else if |x + t| < |pat| {
      assert RemoveAll(t, pat) == t;
    } else {
      assert (x + t)[..|pat|][0] == x[0];
      assert (x + t)[1..] == x[1..] + t;
      RemoveAllSkips(x[1..], t, pat);
      assert [x[0]] + x[1..] == x;
    }
  }

  /** A string without the first character of `pat` is left unchanged. */
  lemma RemoveAllAbsent(s: string, pat: string)
    requires |pat| > 0
    requires forall i :: 0 <= i < |s| ==> s[i] != pat[0]
    ensures RemoveAll(s, pat) == s
  {
    RemoveAllSkips(s, [], pat);
    assert s + [] == s;
    assert RemoveAll([], pat) == [];
  }

  /** `Character.toUpperCase`, restricted to the characters whose case
      mapping leads to or from an ASCII letter; every other character is
      its own upper case here. */
  function ToUpperCase(c: char): char {
    if 'a' <= c <= 'z' then (c as int - 32) as char
    else if c == '\U{017F}' then 'S'     // LATIN SMALL LETTER LONG S
    else if c == '\U{0131}' then 'I'     // LATIN SMALL LETTER DOTLESS I
    else c
  }

  /** `Character.toLowerCase`, restricted in the same way. */
  function ToLowerCase(c: char): char {
    if 'A' <= c <= 'Z' then (c as int + 32) as char
    else if c == '\U{212A}' then 'k'     // KELVIN SIGN
    else if c == '\U{0130}' then 'i'     // LATIN CAPITAL LETTER I WITH DOT ABOVE
    else c
  }

  /** The per-character test of `String.equalsIgnoreCase`. */
  predicate CharsEqualIgnoreCase(a: char, b: char) {
    a == b
    || ToUpperCase(a) == ToUpperCase(b)
    || ToLowerCase(ToUpperCase(a)) == ToLowerCase(ToUpperCase(b))
  }

  predicate EqualsIgnoreCase(a: string, b: string) {
    |a| == |b| && forall i :: 0 <= i < |a| ==> CharsEqualIgnoreCase(a[i], b[i])
  }

  predicate IsLowerAsciiLetter(c: char) { 'a' <= c <= 'z' }

  /** Against a lower-case ASCII letter the test is unambiguous: one
      character never matches two different such letters. */
  lemma CaseMatchUnique(c: char, a: char, b: char)
    requires IsLowerAsciiLetter(a) && IsLowerAsciiLetter(b)
    requires CharsEqualIgnoreCase(c, a) && CharsEqualIgnoreCase(c, b)
    ensures a == b
  {
  }

  /** The two's-complement range of a Java `int`. */
  const IntModulus: int := 0x1_0000_0000

  /** `String.hashCode` before the final reinterpretation as a signed int:
      h = 31 * h + c over the characters, modulo 2^32. */
  function HashAccumulator(s: string): (h: nat)
    ensures h < IntModulus
    decreases |s|
  {
    if |s| == 0 then 0
    else (31 * HashAccumulator(s[..|s| - 1]) + s[|s| - 1] as int) % IntModulus
  }

  /** Reinterprets 32 unsigned bits as a signed Java `int`. */
  function ToInt32(u: nat): (i: int)
    requires u < IntModulus
    ensures -0x8000_0000 <= i < 0x8000_0000
    ensures i % IntModulus == u
  {
    if u < 0x8000_0000 then u else u - IntModulus
  }

  /** `String.hashCode()`. */
  function StringHashCode(s: string): (h: int)
    ensures -0x8000_0000 <= h < 0x8000_0000
  {
    ToInt32(HashAccumulator(s))
  }

  lemma ModDistinct(x: nat, a: nat, b: nat)
    requires a < b < IntModulus
    ensures (x + a) % IntModulus != (x + b) % IntModulus
  {
    var q := x / IntModulus;
    var r := x % IntModulus;
    assert x == q * IntModulus + r;
    if r + a < IntModulus {
      assert (x + a) % IntModulus == r + a;
      if r + b < IntModulus {
        assert (x + b) % IntModulus == r + b;
      } else {
        assert (x + b) % IntModulus == r + b - IntModulus;
      }
    } else {
      assert (x + a) % IntModulus == r + a - IntModulus;
      assert (x + b) % IntModulus == r + b - IntModulus;
    }
  }

  /** Two strings that differ only in their last character hash apart. */
  lemma LastCharSeparatesHashes(p: string, a: char, b: char)
    requires a != b
    ensures StringHashCode(p + [a]) != StringHashCode(p + [b])
  {
    assert (p + [a])[..|p|] == p;
    assert (p + [b])[..|p|] == p;
    var x := 31 * HashAccumulator(p);
    if (a as int) < (b as int) {
      ModDistinct(x, a as int, b as int);
    } else {
      ModDistinct(x, b as int, a as int);
    }
  }
}

=== FILE: responses.dfy ===
/** The parsed JSON objects the ICD-11 API returns, reduced to the fields the
    client reads, and the rule that classifies an entity response
    (`getObjectType`). `None` is a key the object does not have. */
module Responses {
  import opened Wrappers
  import opened Errors
  import opened JavaStrings

  /** One element of a search reply's `destinationEntities` array. */
  datatype Hit = Hit(stemId: Option<string>)

  datatype Response = Response(
    child: Option<seq<string>>,              // `child`: URIs of the children
    code: Option<string>,                    // `code`: the ICD-11 code
    title: Option<string>,                   // `title.@value`
    stemId: Option<string>,                  // `stemId` of a code-info reply
    latestRelease: Option<string>,           // `latestRelease` of a release reply
    destinationEntities: Option<seq<Hit>>)   // hits of a search reply

  /** `EntityType`: what an entity response describes. */
  datatype EntityType = DiagnosisType | SymptomType | CategoryType

  /** `getObjectType`: a response with a `child` key is a category; else
      its `code` decides, a symptom when it starts with "M"; a response with
      neither key makes `getString("code")` throw. */
  function ObjectType(resp: Response): (r: Result<EntityType, Error>)
    ensures resp.child.Some? ==> r == Success(CategoryType)
    ensures r == Success(CategoryType) ==> resp.child.Some?
    ensures r.Failure? <==> resp.child.None? && resp.code.None?
    ensures r.Failure? ==> r.error == MissingField("code")
    ensures resp.child.None? && resp.code.Some? ==>
              (r == Success(SymptomType) <==> StartsWith(resp.code.value, "M"))
  {
    if resp.child.Some? then Success(CategoryType)
    else
      var code :- Need(resp.code, MissingField("code"));
      if StartsWith(code, "M") then Success(SymptomType) else Success(DiagnosisType)
  }

  /** `getTitle(response)`: `title.@value`, or the JSONException. */
  function TitleOf(resp: Response): (r: Result<string, Error>)
    ensures r.Success? <==> resp.title.Some?
    ensures r.Success? ==> r.value == resp.title.value
    ensures r.Failure? ==> r.error == MissingField("title")
  {
    Need(resp.title, MissingField("title"))
  }

  /** A response with no key except `code`. */
  function CodeOnly(code: string): Response {
    Response(None, Some(code), None, None, None, None)
  }

  /** The codes the lookup tests pin: "MG24.01" is a symptom and "1A40.0"
      a diagnosis. */
  lemma PinnedCodesClassify()
    ensures ObjectType(CodeOnly("MG24.01")) == Success(SymptomType)
    ensures ObjectType(CodeOnly("1A40.0")) == Success(DiagnosisType)
  {
    assert StartsWith("MG24.01", "M");
    assert "1A40.0"[0] != 'M';
  }

  /** The `child` test comes first and checks presence, not contents: an
      empty child list with a symptom-like code is still a category. */
  lemma ChildKeyWinsOverCode(resp: Response, children: seq<string>)
    ensures ObjectType(resp.(child := Some(children), code := Some("MG24.01"))) == Success(CategoryType)
    ensures ObjectType(resp.(child := Some([]))) == Success(CategoryType)
  {
  }

  /** An empty code is not a symptom code. */
  lemma EmptyCodeIsDiagnosis()
    ensures ObjectType(CodeOnly("")) == Success(DiagnosisType)
  {
  }
}

=== FILE: titled.dfy ===
/** A title stored in one "home" language plus a deferred getter for every
    other language (`TitledImplementation` with its `AnotherLanguageGetter`).
    The three parts are fixed at construction: the datatype is immutable. */
module Titles {
  import opened Wrappers
  import opened Errors
  import opened ICDLanguages

  /** `AnotherLanguageGetter`: a title in the requested language, or the
      exception the getter throws. */
  type Getter = Language -> Result<string, Error>

  datatype Titled = Titled(title: string, home: Language, getter: Getter)

  /** `AnotherLanguageGetter.throwException`: rejects every language. */
  function RejectOtherLanguages(l: Language): (r: Result<string, Error>)
    ensures r == Failure(Unsupported)
  {
    Failure(Unsupported)
  }

  /** `getTitle(language)`: the stored title for the home language, the
      getter's answer for any other. */
  function TitleIn(t: Titled, l: Language): (r: Result<string, Error>)
    ensures l == t.home ==> r == Success(t.title)
    ensures l != t.home ==> r == t.getter(l)
  {
    if t.home == l then Success(t.title) else t.getter(l)
  }

  /** `getTitle()`: the title in English, whatever the home language. */
  function DefaultTitle(t: Titled): (r: Result<string, Error>)
    ensures t.home == English ==> r == Success(t.title)
    ensures t.home != English ==> r == t.getter(English)
  {
    TitleIn(t, English)
  }

  /** The home-language title never consults the getter: two titled
      values that differ only in their getters agree on it. */
  lemma HomeTitleIgnoresGetter(title: string, home: Language, g1: Getter, g2: Getter)
    ensures TitleIn(Titled(title, home, g1), home) == TitleIn(Titled(title, home, g2), home)
    ensures TitleIn(Titled(title, home, g1), home) == Success(title)
  {
  }

  /** A non-home title is exactly the getter's answer, so two getters that
      agree on `l` give the same title there. */
  lemma OtherTitleIsGetters(title: string, home: Language, g: Getter, l: Language)
    requires l != home
    ensures TitleIn(Titled(title, home, g), l) == g(l)
  {
  }

  /** The value `getTitleByEntityID` returns: translation is forbidden. */
  function Untranslatable(title: string, home: Language): (t: Titled)
    ensures t.title == title && t.home == home
    ensures forall l :: l != home ==> t.getter(l) == Failure(Unsupported)
  {
    Titled(title, home, RejectOtherLanguages)
  }

  /** With the rejecting getter, a title is available in exactly one
      language, the home one. */
  lemma UntranslatableOnlyAtHome(title: string, home: Language, l: Language)
    ensures TitleIn(Untranslatable(title, home), l).Success? <==> l == home
    ensures l != home ==> TitleIn(Untranslatable(title, home), l) == Failure(Unsupported)
  {
  }

  /** `getTitle()` of an untranslatable value fails unless its home
      language is English. */
  lemma UntranslatableDefaultTitle(title: string, home: Language)
    ensures DefaultTitle(Untranslatable(title, home)).Success? <==> home == English
  {
  }
}

=== FILE: wrappers.dfy ===
/** Failure-compatible Option and Result types used throughout the model.
    `Option` stands for a Java reference that may be null (or a JSON key
    that may be absent); `Result` stands for a call that either returns or
    throws. */
module Wrappers {

  datatype Option<+T> = None | Some(value: T) {
    predicate IsFailure() { None? }

    function PropagateFailure<U>(): Option<U>
      requires None?
    {
      None
    }

    function Extract(): T
      requires Some?
    {
      value
    }
  }

  datatype Result<+T, +E> = Success(value: T) | Failure(error: E) {
    predicate IsFailure() { Failure? }

    function PropagateFailure<U>(): Result<U, E>
      requires Failure?
    {
      Failure(error)
    }

    function Extract(): T
      requires Success?
    {
      value
    }
  }

  /** Turns an absent value into the given failure. */
  function Need<T, E>(o: Option<T>, e: E): (r: Result<T, E>)
    ensures r.Success? <==> o.Some?
    ensures o.Some? ==> r.value == o.value
    ensures o.None? ==> r.error == e
  {
    match o
    case Some(v) => Success(v)
    case None => Failure(e)
  }

  /** Applies `f` to the elements of `xs` in order and collects the results,
      stopping at the first failure, as a Java loop that adds one element
      per iteration and lets the first exception escape. */
  function MapUntilFailure<A, B, E>(f: A -> Result<B, E>, xs: seq<A>): (r: Result<seq<B>, E>)
    ensures r.Success? <==> forall i :: 0 <= i < |xs| ==> f(xs[i]).Success?
    ensures r.Success? ==> |r.value| == |xs|
    ensures r.Success? ==> forall i :: 0 <= i < |xs| ==> f(xs[i]) == Success(r.value[i])
    ensures r.Failure? ==> exists k :: 0 <= k < |xs| && f(xs[k]) == Failure(r.error)
                                      && forall j :: 0 <= j < k ==> f(xs[j]).Success?
    decreases |xs|
  {
    if |xs| == 0 then Success([])
    else
      match f(xs[0])
      case Failure(e) => Failure(e)
      case Success(y) =>
        match MapUntilFailure(f, xs[1..])
        case Failure(e) =>
          assert exists k :: 0 <= k < |xs| && f(xs[k]) == Failure(e)
                             && forall j :: 0 <= j < k ==> f(xs[j]).Success? by {
            var k :| 0 <= k < |xs| - 1 && f(xs[1..][k]) == Failure(e)
                     && forall j :: 0 <= j < k ==> f(xs[1..][j]).Success?;
            assert f(xs[k + 1]) == Failure(e);
            assert forall j :: 1 <= j < k + 1 ==> f(xs[j]) == f(xs[1..][j - 1]);
          }
          Failure(e)
        case Success(ys) => Success([y] + ys)
  }
}
